=== FILE: README.md ===
# Sensu `elastic` handler extension, modelled in Dafny

This project models the core of the Sensu extension `Sensu::Extension::Elastic`
(`elastic.rb`), which forwards Sensu events to Elasticsearch through its bulk
API. The handler keeps an in-memory buffer `@data` of serialised lines. Each
event handed to `run` adds an index-action line and a document line. A
periodic timer calls `flush`, which joins the buffer with newlines, POSTs it
to `<endpoint>/_bulk` and resets the buffer.

The model is functional. The handler state is an immutable record
(`Elastic.Handler`: the `@settings[:elastic]` value, the `@options` cache, the
buffer and the bulk URI), and `options`, `post_init`, `run` and `flush` are
pure functions from one state to the next.

Modules:

- `Wrappers`: `Option`, standing for Ruby's `nil`-or-value.
- `Hashes`: Ruby's insertion-ordered `Hash` as a sequence of pairs, with
  `Get` (`h[k]`) and `Merge` (`Hash#merge`: the receiver's entries keep their
  places, the argument wins on shared keys, and new keys are appended).
- `Json`: abstract JSON values; objects are ordered hashes, so the key order
  `JSON.dump` writes is part of the value.
- `Lines`: `Array#join("\n")`, plus the line split a reader of the bulk body
  performs, proved to be its inverse.
- `Elastic`: option resolution, `post_init`, `run`, `flush`.
- `Traces`: arbitrary sequences of `run` and `flush` calls replayed from
  `post_init`. These carry the buffer invariants. Every appended line is
  either still buffered or in exactly one cleared batch. The length stays
  even as long as no `run` tore a pair (see below).

Library calls are fields of an `Elastic.Library` record of given total
functions: `JSON.load` and `JSON.dump` (`None` when they raise),
`Time#strftime` at a clock reading, `Time.at(issued).iso8601`, and the `to_s`
that string interpolation applies. The clock reading `Time.new` is a
parameter of `Run`. How the POST ends is a parameter of `Flush`:
`Success` (2xx), `NonSuccess`, `Timeout`, `SocketFailure`, or `OtherFailure`
(any other non-timeout connection exception; Net::HTTP's open and read
timeouts are `Timeout::Error`s and count as `Timeout`).

Where the code does something other than one might assume, the model follows
the code:

- A failed connection does not clear the buffer. After a `SocketError`,
  `res` is `nil`, so `res.body` raises `NoMethodError`. That exception is not
  a `Timeout::Error`, so it escapes before `@data = []` (elastic.rb:59-73).
  Any other non-timeout connection exception escapes the same way. If
  `flush` is called again, the retained lines lead its request
  (`Traces.ResentAfterFailure`).
- The bulk body has no trailing newline (elastic.rb:58; `Lines.JoinSeparators`).
- Only a `nil` parse result is rejected (elastic.rb:84). An empty hash `{}`
  is accepted and yields a document holding only the derived keys.
- There is no atomic buffer swap. EventMachine runs both callbacks on one
  thread, so whole-call sequences (`Traces.Replay`) are every interleaving
  there is.
- `run` has exception paths of its own. A non-string `index` option makes
  `strftime` raise `TypeError` (elastic.rb:88). A payload that is not a hash
  makes `merge` raise `NoMethodError` (elastic.rb:102), after `concat` has
  already extended the client's tags. In both cases the buffer is unchanged.
- The two lines are pushed one at a time (elastic.rb:103-104). If
  `JSON.dump` raises on the action, nothing is pushed. If it raises on the
  document, for instance on a string that is not valid UTF-8, the action line
  has already been pushed and stays in the buffer alone. The exception
  escapes `run`. The buffer length is then odd, with later action lines
  where document lines are expected, until a flush clears it or another pair
  is torn (`Traces.TornPairMisaligns`).

## Model

| member | source | states |
|---|---|---|
| Hashes.MergeGet | elastic.rb:102 | looking up a key in `a.merge(b)` gives `b`'s value when `b` has the key and `a`'s otherwise |
| Hashes.MergeKeys | elastic.rb:102 | the receiver's keys come first in their order; the merge has exactly the keys of both sides, with none repeated when neither side repeats one |
| Elastic.ResolveOptions | elastic.rb:32-41 | every option overridden by a `@settings[:elastic]` hash takes the override's value and every other option keeps its default; a non-hash setting leaves the defaults exactly; the default keys keep their order |
| Elastic.DefaultOptions | elastic.rb:32-38 | options that are not overridden are timeout 5, endpoint `http://localhost:9200`, type `sensu`, index `sensu-%Y.%m.%d`, flush_interval 2 |
| Elastic.Options | elastic.rb:30-43 | a cached hash is returned as is; otherwise the resolved hash is returned and becomes the cache; nothing else in the handler changes |
| Elastic.OptionsCached | elastic.rb:31 | a second call returns the first call's hash and changes nothing, even if the settings changed in between |
| Elastic.PostInit | elastic.rb:45-51 | after `post_init` the buffer is empty, the options are resolved and cached, and the URI ends in `/_bulk` |
| Elastic.BulkUri | elastic.rb:50 | the bulk URI is the configured endpoint string followed by `/_bulk`, or `http://localhost:9200/_bulk` when no endpoint is configured |
| Elastic.Run | elastic.rb:76-107 | `run` skips exactly when the parse raised or gave `nil`, and then changes neither handler nor event. It finishes only for a hash payload with a string index pattern, yielding `'elastic: handler finished', 0`. The earlier lines are never touched, and at most two lines are added. Two are added exactly when it finishes. One is added only when a dump raised after the action line was pushed. Past the parse, `TypeError` is raised exactly when the index pattern is not a string, and then the event and the buffer are unchanged |
| Elastic.RejectedIsNoOp | elastic.rb:79-84 | an event whose output fails to parse or parses to `nil` leaves the handler and the event unchanged and yields nothing |
| Elastic.RunAppendsPair | elastic.rb:85-104 | when `run` finishes, both lines serialised, and the dumped action and then the dumped document are appended after the earlier lines |
| Elastic.RunDumpOutcomes | elastic.rb:102-105 | for a hash payload and a string index pattern, `run` finishes exactly when both lines serialise. If the action does not serialise, `GeneratorError` escapes with the buffer unchanged. If only the document fails, `GeneratorError` escapes with the action line alone appended |
| Elastic.RunNonHashPayload | elastic.rb:93-102 | with a string index pattern, a parsed payload that is neither `nil` nor a hash makes `run` raise `NoMethodError` with the buffer unchanged, after the client's tags were extended |
| Elastic.DocumentFields | elastic.rb:93-102 | the document carries `@version` "1", the ISO-8601 issue time, the client name, client tags then check tags, and the configured type, whatever the payload held under those keys; every other payload key keeps its value; the payload's keys come first; no other key is added; no key is repeated |
| Elastic.ActionMatchesDocument | elastic.rb:85-92 | the action line has the single key `index`, naming a `nil` id and routing, the date-formatted index, and the same type as the document |
| Elastic.RunExtendsClientTags | elastic.rb:93-94 | once past parsing and `strftime`, `run` has appended the check's tags to the client's own tag array when it has one, and leaves the event alone when it has none |
| Elastic.Flush | elastic.rb:53-74 | on an empty buffer nothing is sent and nothing changes; otherwise the buffer joined by newlines is POSTed to the bulk URI; the buffer is emptied after a response or a timeout and kept, with an escaping exception, after a connection failure |
| Elastic.FlushBodyLines | elastic.rb:58 | when no line holds a newline, splitting the request body at newlines gives back exactly the buffer, with one separator fewer than lines |
| Lines.SplitJoin | elastic.rb:58 | splitting the joined lines gives back the lines when none holds a newline |
| Lines.JoinSplit | elastic.rb:58 | joining the pieces of any text gives the text back |
| Lines.JoinSeparators | elastic.rb:58 | a join of newline-free lines holds one newline fewer than there are lines, so it has no terminating newline |
| Lines.JoinUnterminated | elastic.rb:58 | a join whose last line is non-empty and newline-free does not end in a newline |
| Traces.Step | elastic.rb:46-48 | one `run` or `flush` call loses and duplicates no line: buffered plus appended equals cleared plus what stays. It appends whole pairs unless it tore one. It clears nothing or the whole buffer at once. An event clears nothing. A step is torn exactly when `run` left a single line, which happens only with `GeneratorError`. A cleared buffer was sent as one joined request to the bulk URI |
| Traces.Replay | elastic.rb:46-49 | for any step function that loses and duplicates no line, a replayed sequence of callbacks keeps buffered plus appended equal to cleared plus remaining. If no step tore a pair, it appends whole pairs and keeps an even buffer even |
| Traces.FromEmpty | elastic.rb:49 | from an empty buffer, the lines ever appended are exactly the cleared batches followed by what is still buffered. If no pair was torn, the buffer length stays even |
| Traces.BufferAccounting | elastic.rb:49 | from `post_init` on, the lines ever appended are exactly the cleared batches followed by what is still buffered, in order. If no `run` tore a pair, the buffer length is even |
| Traces.TornPairMisaligns | elastic.rb:103-104 | a `run` that tears a pair on an even buffer raises `GeneratorError` and leaves the buffer odd |
| Traces.IdleTick | elastic.rb:54 | a tick on an empty buffer makes no request and changes nothing |
| Traces.TickOutcome | elastic.rb:59-73 | a tick on a non-empty buffer clears it all after a 2xx response, another response, or a timeout, and clears none of it after a connection failure |
| Traces.ResentAfterFailure | elastic.rb:59-73 | after a connection failure, if `flush` is called again, the retained lines lead its request body, followed by the lines delivered in between |

## Left out

- Logging (`@logger` calls): they have no effect on the buffer.
- Net::HTTP and `Timeout`: how the POST ends is an input. The `timeout` option's value is not used to decide it.
- JSON parsing and serialisation, `strftime`, `iso8601` and `to_s` are given functions. Their outputs are not interpreted. JSON numbers are integers only.
- The completion message and status are carried in the `Finished` outcome rather than passed to a block.
- Event fields are typed: `issued` is an integer, and tags are arrays or absent. Other shapes are not modelled (most make the source raise).
- Ruby object identity is not modelled. If the client and the check share one tag array, `concat` would double it; with values this cannot happen.
- `URI.parse` failing on a malformed endpoint is not modelled; the URI is kept as a string.
- Option keys are the option symbols' names, so a string key `"type"` and a symbol `:type` are not told apart.
- The metadata methods `name`, `description` and `definition` are constants with no behaviour.
- Exceptions escaping `run` or `flush` end that call. What EventMachine then does with them is not modelled.
- `EM::PeriodicTimer` scheduling and `flush_interval` are not modelled: a tick is an input of a trace, and time between ticks is not modelled. `EM::PeriodicTimer` reschedules only after its block returns, so an exception escaping `flush` (elastic.rb:46-48, 63-67) may stop further flushing. A trace's `Tick` means `flush` is called, and nothing promises that a next tick comes.

=== FILE: elastic.dfy ===
/** The Sensu `elastic` handler extension: option resolution, the buffer of
    bulk-request lines, the per-event transformation (`run`) and the
    timer-driven `flush`, as pure transitions on a handler state. */
module Elastic {
  import opened Wrappers
  import opened Hashes
  import opened Json
  import opened Lines

  /** Library calls the handler makes but does not define, taken as given
      total functions: `JSON.load` and `JSON.dump` (`None` when they raise),
      `Time#strftime` at a clock reading, `Time.at(t).iso8601`, and the
      `to_s` that string interpolation applies to a non-string value. */
  datatype Library = Library(
    load: string -> Option<Value>,
    dump: Value -> Option<string>,
    strftime: (int, string) -> string,
    iso8601: int -> string,
    toS: Value -> string)

  /** The option defaults, keyed by the option symbols' names. */
  const Defaults: Hash<string, Value> := [
    ("timeout", Num(5)),
    ("endpoint", Str("http://localhost:9200")),
    ("type", Str("sensu")),
    ("index", Str("sensu-%Y.%m.%d")),
    ("flush_interval", Num(2))
  ]

  /** The handler's instance state. `elastic` is `@settings[:elastic]`
      (`Null` when absent), `cache` is `@options` (`None` until first
      computed), `data` is the buffer of serialised lines, `uri` the bulk
      endpoint. */
  datatype Handler = Handler(
    elastic: Value,
    cache: Option<Hash<string, Value>>,
    data: seq<string>,
    uri: string)

  datatype Client = Client(name: Value, tags: Option<seq<Value>>)
  datatype Check = Check(output: string, tags: Option<seq<Value>>, issued: int)
  /** An event as the host hands it over (`ruby_hash` mutator). */
  datatype Event = Event(client: Client, check: Check)

  /** An exception that escapes a call. */
  datatype Raise = TypeError | NoMethodError | GeneratorError

  /** What `run` does: returns without yielding, yields the completion
      message, or lets an exception escape. */
  datatype RunOutcome = Skipped | Finished(message: string, status: int) | Raised(error: Raise)

  /** The handler and the event (whose client tags `run` may extend) after `run`. */
  datatype RunStep = RunStep(handler: Handler, event: Event, outcome: RunOutcome)

  /** How the bulk POST ends: a 2xx response, another response, a
      `Timeout::Error` (the `timeout` block expiring, or Net::HTTP's own open
      and read timeouts), a `SocketError`, or any other non-timeout
      connection exception. */
  datatype SendOutcome = Success | NonSuccess | Timeout | SocketFailure | OtherFailure

  datatype Post = Post(uri: string, body: string)

  /** The handler after `flush`, the request it attempted, and whether an
      exception escaped. */
  datatype FlushStep = FlushStep(handler: Handler, request: Option<Post>, raised: bool)

  /** The override `@settings[:elastic]` holds for option `k`, if any. */
  function Overridden(elastic: Value, k: string): Option<Option<Value>> {
    if elastic.Obj? && Get(elastic.fields, k).Some? then Some(Get(elastic.fields, k)) else None
  }

  /** The defaults with every entry of `@settings[:elastic]` merged over
      them, when that setting is a hash. */
  function ResolveOptions(elastic: Value): (opts: Hash<string, Value>)
    ensures forall k :: Get(opts, k) == Overridden(elastic, k).GetOr(Get(Defaults, k))
    ensures Keys(Defaults) <= Keys(opts)
    ensures !elastic.Obj? ==> opts == Defaults
  {
    if elastic.Obj? then
      MergeGetAll(Defaults, elastic.fields);
      MergeKeys(Defaults, elastic.fields);
      Merge(Defaults, elastic.fields)
    else Defaults
  }

  /** `options`: the cached hash when there is one, otherwise the resolved
      hash, which is cached. */
  function Options(h: Handler): (r: (Hash<string, Value>, Handler))
    ensures r.1 == h.(cache := Some(r.0))
    ensures h.cache.Some? ==> r.0 == h.cache.value
    ensures h.cache.None? ==> r.0 == ResolveOptions(h.elastic)
  {
    match h.cache
    case Some(opts) => (opts, h)
    case None =>
      var opts := ResolveOptions(h.elastic);
      (opts, h.(cache := Some(opts)))
  }

  /** Ruby's `"#{v}"`: a string as itself, `nil` as the empty string. */
  function Interpolate(v: Value, lib: Library): string {
    match v
    case Str(s) => s
    case Null => ""
    case _ => lib.toS(v)
  }

  /** `post_init`: options resolved and cached, an empty buffer, and the
      bulk endpoint `"#{options[:endpoint]}/_bulk"`. */
  function PostInit(elastic: Value, lib: Library): (h: Handler)
    ensures h.data == [] && h.elastic == elastic
    ensures h.cache == Some(ResolveOptions(elastic))
    ensures |h.uri| >= 6 && h.uri[|h.uri| - 6..] == "/_bulk"
  {
    var (opts, h0) := Options(Handler(elastic, None, [], ""));
    h0.(data := [], uri := Interpolate(At(opts, "endpoint"), lib) + "/_bulk")
  }

  /** A parse result `run` ignores: `JSON.load` raised, or returned `nil`. */
  predicate Rejected(parsed: Option<Value>) {
    parsed.None? || parsed.value.Null?
  }

  /** `client[:tags] || []` extended by `check[:tags] || []`. */
  function Tags(e: Event): seq<Value> {
    e.client.tags.GetOr([]) + e.check.tags.GetOr([])
  }

  /** `concat` extends the client's own tag array in place; a missing one is
      replaced by a fresh array, so the event is left alone. */
  function AfterConcat(e: Event): Event {
    if e.client.tags.Some? then e.(client := e.client.(tags := Some(Tags(e)))) else e
  }

  /** The bulk action line's object. */
  function IndexAction(opts: Hash<string, Value>, index: string, now: int, lib: Library): Value {
    Obj([("index", Obj([
      ("_id", Null),
      ("_index", Str(lib.strftime(now, index))),
      ("_type", At(opts, "type")),
      ("_routing", Null)]))])
  }

  /** The keys the handler derives for every document, in insertion order. */
  function Derived(e: Event, opts: Hash<string, Value>, lib: Library): Hash<string, Value> {
    [ ("@version", Str("1")),
      ("@timestamp", Str(lib.iso8601(e.check.issued))),
      ("sensuclient", e.client.name),
      ("tags", Arr(Tags(e))),
      ("type", At(opts, "type")) ]
  }

  /** `event_data.merge(source)`. */
  function Document(payload: Hash<string, Value>, e: Event, opts: Hash<string, Value>, lib: Library): Value {
    Obj(Merge(payload, Derived(e, opts, lib)))
  }

  /** `run(event)` with the clock reading `now` (`Time.new`). */
  function Run(h: Handler, e: Event, now: int, lib: Library): (r: RunStep)
    ensures r.outcome.Skipped? <==> Rejected(lib.load(e.check.output))
    ensures r.outcome.Skipped? ==> r.handler == h && r.event == e
    ensures r.outcome.Finished? ==>
      && lib.load(e.check.output).Some?
      && lib.load(e.check.output).value.Obj?
      && At(Options(h).0, "index").Str?
    ensures r.outcome.Finished? ==> r.outcome == Finished("elastic: handler finished", 0)
    ensures |h.data| <= |r.handler.data| <= |h.data| + 2 && r.handler.data[..|h.data|] == h.data
    ensures |r.handler.data| == |h.data| + 2 <==> r.outcome.Finished?
    ensures |r.handler.data| == |h.data| + 1 ==> r.outcome == Raised(GeneratorError)
    ensures !Rejected(lib.load(e.check.output)) && !At(Options(h).0, "index").Str? ==>
      r.outcome == Raised(TypeError) && r.event == e && r.handler.data == h.data
    ensures r.outcome == Raised(TypeError) ==> !At(Options(h).0, "index").Str? && r.event == e
    ensures r.handler.elastic == h.elastic && r.handler.uri == h.uri
  {
    var parsed := lib.load(e.check.output);
    if Rejected(parsed) then RunStep(h, e, Skipped)
    else
      var (opts, h1) := Options(h);
      var pattern := At(opts, "index");
      if !pattern.Str? then RunStep(h1, e, Raised(TypeError))
      else
        var header := IndexAction(opts, pattern.s, now, lib);
        var e1 := AfterConcat(e);
        if !parsed.value.Obj? then RunStep(h1, e1, Raised(NoMethodError))
        else
          var body := Document(parsed.value.fields, e, opts, lib);
          // The action line is pushed before the document is dumped.
          match lib.dump(header)
          case None => RunStep(h1, e1, Raised(GeneratorError))
          case Some(action) =>
            match lib.dump(body)
            case None => RunStep(h1.(data := h1.data + [action]), e1, Raised(GeneratorError))
            case Some(document) =>
              RunStep(h1.(data := h1.data + [action, document]), e1,
                      Finished("elastic: handler finished", 0))
  }

  /** `flush` given how the POST ends. */
  function Flush(h: Handler, outcome: SendOutcome): (r: FlushStep)
    ensures |h.data| == 0 ==> r == FlushStep(h, None, false)
    ensures |h.data| > 0 ==> r.request == Some(Post(h.uri, Join(h.data)))
    ensures r.raised <==> |h.data| > 0 && (outcome.SocketFailure? || outcome.OtherFailure?)
    ensures r.raised ==> r.handler.data == h.data
    ensures !r.raised ==> r.handler.data == []
    ensures r.handler.elastic == h.elastic && r.handler.uri == h.uri
  {
    if |h.data| == 0 then FlushStep(h, None, false)
    else
      var (_, h1) := Options(h);
      var request := Post(h.uri, Join(h.data));
      match outcome
      case Success => FlushStep(h1.(data := []), Some(request), false)
      case NonSuccess => FlushStep(h1.(data := []), Some(request), false)
      case Timeout => FlushStep(h1.(data := []), Some(request), false)
      case SocketFailure => FlushStep(h1, Some(request), true)
      case OtherFailure => FlushStep(h1, Some(request), true)
  }

  lemma DefaultsLookup()
    ensures Get(Defaults, "timeout") == Some(Num(5))
    ensures Get(Defaults, "endpoint") == Some(Str("http://localhost:9200"))
    ensures Get(Defaults, "type") == Some(Str("sensu"))
    ensures Get(Defaults, "index") == Some(Str("sensu-%Y.%m.%d"))
    ensures Get(Defaults, "flush_interval") == Some(Num(2))
  {
  }

  /** Without an override, each option keeps its default. */
  lemma DefaultOptions(elastic: Value)
    ensures var opts := ResolveOptions(elastic);
      && (Overridden(elastic, "timeout").None? ==> At(opts, "timeout") == Num(5))
      && (Overridden(elastic, "endpoint").None? ==> At(opts, "endpoint") == Str("http://localhost:9200"))
      && (Overridden(elastic, "type").None? ==> At(opts, "type") == Str("sensu"))
      && (Overridden(elastic, "index").None? ==> At(opts, "index") == Str("sensu-%Y.%m.%d"))
      && (Overridden(elastic, "flush_interval").None? ==> At(opts, "flush_interval") == Num(2))
  {
    DefaultsLookup();
  }

  /** Once computed, `options` returns the cached hash and changes nothing,
      even if `@settings` has changed since. */
  lemma OptionsCached(h: Handler, elastic: Value)
    ensures var (opts, h1) := Options(h);
      && Options(h1) == (opts, h1)
      && Options(h1.(elastic := elastic)).0 == opts
  {
  }

  /** The bulk endpoint is the configured endpoint string followed by
      `/_bulk`, `http://localhost:9200/_bulk` when none is configured. */
  lemma BulkUri(elastic: Value, lib: Library)
    ensures var ep := if elastic.Obj? then Get(elastic.fields, "endpoint") else None;
      && (ep.Some? && ep.value.Str? ==> PostInit(elastic, lib).uri == ep.value.s + "/_bulk")
      && (ep.None? ==> PostInit(elastic, lib).uri == "http://localhost:9200/_bulk")
  {
    DefaultsLookup();
    var opts := ResolveOptions(elastic);
    assert PostInit(elastic, lib).uri == Interpolate(At(opts, "endpoint"), lib) + "/_bulk";
  }

  /** An accepted event appends exactly its action line and then its
      document line. */
  lemma RunAppendsPair(h: Handler, e: Event, now: int, lib: Library)
    requires Run(h, e, now, lib).outcome.Finished?
    ensures var opts := Options(h).0;
      && lib.dump(IndexAction(opts, At(opts, "index").s, now, lib)).Some?
      && lib.dump(Document(lib.load(e.check.output).value.fields, e, opts, lib)).Some?
      && Run(h, e, now, lib).handler.data == h.data + [
           lib.dump(IndexAction(opts, At(opts, "index").s, now, lib)).value,
           lib.dump(Document(lib.load(e.check.output).value.fields, e, opts, lib)).value]
  {
  }

  /** For a hash payload and a string index pattern, `run` finishes exactly
      when both lines serialise. When the action serialises but the document
      does not, the action line alone stays in the buffer and the exception
      escapes; when the action does not serialise, nothing is pushed. */
  lemma RunDumpOutcomes(h: Handler, e: Event, now: int, lib: Library)
    requires lib.load(e.check.output).Some? && lib.load(e.check.output).value.Obj?
    requires At(Options(h).0, "index").Str?
    ensures var opts := Options(h).0;
      var action := lib.dump(IndexAction(opts, At(opts, "index").s, now, lib));
      var document := lib.dump(Document(lib.load(e.check.output).value.fields, e, opts, lib));
      var r := Run(h, e, now, lib);
      && (r.outcome.Finished? <==> action.Some? && document.Some?)
      && (action.None? ==> r.outcome == Raised(GeneratorError) && r.handler.data == h.data)
      && (action.Some? && document.None? ==>
            r.outcome == Raised(GeneratorError) && r.handler.data == h.data + [action.value])
  {
  }

  /** A parsed payload that is neither `nil` nor a hash has no `merge`: the
      exception escapes with the buffer unchanged, after `concat` has already
      extended the client's tags. */
  lemma RunNonHashPayload(h: Handler, e: Event, now: int, lib: Library)
    requires !Rejected(lib.load(e.check.output)) && !lib.load(e.check.output).value.Obj?
    requires At(Options(h).0, "index").Str?
    ensures Run(h, e, now, lib).outcome == Raised(NoMethodError)
    ensures Run(h, e, now, lib).handler.data == h.data
    ensures Run(h, e, now, lib).event == AfterConcat(e)
  {
  }

  /** The derived keys, each once, and what they look up. */
  lemma DerivedLookup(e: Event, opts: Hash<string, Value>, lib: Library)
    ensures var derived := Derived(e, opts, lib);
      && Keys(derived) == ["@version", "@timestamp", "sensuclient", "tags", "type"]
      && Distinct(Keys(derived))
      && Get(derived, "@version") == Some(Str("1"))
      && Get(derived, "@timestamp") == Some(Str(lib.iso8601(e.check.issued)))
      && Get(derived, "sensuclient") == Some(e.client.name)
      && Get(derived, "tags") == Some(Arr(Tags(e)))
      && Get(derived, "type") == Some(At(opts, "type"))
  {
    var derived := Derived(e, opts, lib);
    KeysIndex(derived);
    assert Keys(derived) == ["@version", "@timestamp", "sensuclient", "tags", "type"];
    GetAtIndex(derived, 0);
    GetAtIndex(derived, 1);
    GetAtIndex(derived, 2);
    GetAtIndex(derived, 3);
    GetAtIndex(derived, 4);
  }

  /** Every document: the derived keys carry the derived values whatever the
      payload held under them; every other payload key keeps its value; the
      payload's keys come first in their own order; nothing else is added. */
  lemma DocumentFields(payload: Hash<string, Value>, e: Event, opts: Hash<string, Value>, lib: Library)
    ensures var doc := Document(payload, e, opts, lib).fields;
      && Get(doc, "@version") == Some(Str("1"))
      && Get(doc, "@timestamp") == Some(Str(lib.iso8601(e.check.issued)))
      && Get(doc, "sensuclient") == Some(e.client.name)
      && Get(doc, "tags") == Some(Arr(e.client.tags.GetOr([]) + e.check.tags.GetOr([])))
      && Get(doc, "type") == Some(At(opts, "type"))
      && (forall k :: k !in Keys(Derived(e, opts, lib)) ==> Get(doc, k) == Get(payload, k))
      && Keys(payload) <= Keys(doc)
      && (forall k :: k in Keys(doc) <==> k in Keys(payload) || k in Keys(Derived(e, opts, lib)))
      && (Distinct(Keys(payload)) ==> Distinct(Keys(doc)))
  {
    var derived := Derived(e, opts, lib);
    var doc := Merge(payload, derived);
    DerivedLookup(e, opts, lib);
    MergeGet(payload, derived, "@version");
    MergeGet(payload, derived, "@timestamp");
    MergeGet(payload, derived, "sensuclient");
    MergeGet(payload, derived, "tags");
    MergeGet(payload, derived, "type");
    forall k | k !in Keys(derived) ensures Get(doc, k) == Get(payload, k) {
      GetSomeIffKey(derived, k);
      MergeGet(payload, derived, k);
    }
    MergeKeys(payload, derived);
  }

  /** The action line names the same document type as the document itself,
      and the date-formatted index. */
  lemma ActionMatchesDocument(payload: Hash<string, Value>, e: Event, opts: Hash<string, Value>,
                              index: string, now: int, lib: Library)
    ensures var action := IndexAction(opts, index, now, lib).fields;
      && Keys(action) == ["index"]
      && Get(Get(action, "index").value.fields, "_type") == Get(Document(payload, e, opts, lib).fields, "type")
      && Get(Get(action, "index").value.fields, "_index") == Some(Str(lib.strftime(now, index)))
      && Get(Get(action, "index").value.fields, "_id") == Some(Null)
      && Get(Get(action, "index").value.fields, "_routing") == Some(Null)
  {
    DerivedLookup(e, opts, lib);
    MergeGet(payload, Derived(e, opts, lib), "type");
    var inner := Get(IndexAction(opts, index, now, lib).fields, "index").value.fields;
    KeysIndex(inner);
    assert Distinct(Keys(inner));
    GetAtIndex(inner, 0);
    GetAtIndex(inner, 1);
    GetAtIndex(inner, 2);
    GetAtIndex(inner, 3);
  }

  /** `run` leaves the client's tags extended by the check's tags when the
      client had a tag array, and the event untouched otherwise. */
  lemma RunExtendsClientTags(h: Handler, e: Event, now: int, lib: Library)
    requires !Run(h, e, now, lib).outcome.Skipped? && At(Options(h).0, "index").Str?
    ensures var e1 := Run(h, e, now, lib).event;
      && e1.check == e.check && e1.client.name == e.client.name
      && (e.client.tags.Some? ==> e1.client.tags == Some(e.client.tags.value + e.check.tags.GetOr([])))
      && (e.client.tags.None? ==> e1 == e)
  {
  }

  /** A rejected payload changes nothing and yields nothing. */
  lemma RejectedIsNoOp(h: Handler, e: Event, now: int, lib: Library)
    requires Rejected(lib.load(e.check.output))
    ensures Run(h, e, now, lib) == RunStep(h, e, Skipped)
  {
  }

  /** When no serialised line holds a newline, the backend reading the body
      line by line recovers exactly the flushed buffer, and the body has one
      separator fewer than lines. */
  lemma FlushBodyLines(h: Handler, outcome: SendOutcome)
    requires |h.data| > 0
    requires forall i :: 0 <= i < |h.data| ==> SingleLine(h.data[i])
    ensures Split(Flush(h, outcome).request.value.body) == h.data
    ensures NewlineCount(Flush(h, outcome).request.value.body) == |h.data| - 1
  {
    SplitJoin(h.data);
    JoinSeparators(h.data);
  }
}

=== FILE: hashes.dfy ===
/** Ruby's `Hash` as the handler uses it: an insertion-ordered table.
    Lookups see the first entry with a given key, and `Merge` is `Hash#merge`:
    the receiver's entries keep their places (taking the argument's value on
    a shared key) and the argument's new keys follow in their own order. */
module Hashes {
  import opened Wrappers

  type Hash<K, V> = seq<(K, V)>

  /** The keys of `h`, in insertion order. */
  function Keys<K, V>(h: Hash<K, V>): seq<K> {
    if |h| == 0 then [] else [h[0].0] + Keys(h[1..])
  }

  /** `h[k]`: the value of the first entry with key `k`. */
  function Get<K(==), V>(h: Hash<K, V>, k: K): Option<V> {
    if |h| == 0 then None
    else if h[0].0 == k then Some(h[0].1)
    else Get(h[1..], k)
  }

  /** No key occurs twice, as in every Ruby hash. */
  predicate Distinct<T(==)>(s: seq<T>) {
    forall i, j :: 0 <= i < j < |s| ==> s[i] != s[j]
  }

  /** The receiver's entries, each taking the argument's value when the
      argument has the same key. */
  function Overlay<K(==), V>(a: Hash<K, V>, b: Hash<K, V>): Hash<K, V> {
    if |a| == 0 then []
    else [(a[0].0, Get(b, a[0].0).GetOr(a[0].1))] + Overlay(a[1..], b)
  }

  /** The entries of `b` whose key `a` does not have, in `b`'s order. */
  function Fresh<K(==), V>(b: Hash<K, V>, a: Hash<K, V>): Hash<K, V> {
    if |b| == 0 then []
    else (if b[0].0 in Keys(a) then [] else [b[0]]) + Fresh(b[1..], a)
  }

  /** `a.merge(b)` (and `a.merge!(b)` on a value): `b` wins on shared keys. */
  function Merge<K(==), V>(a: Hash<K, V>, b: Hash<K, V>): Hash<K, V> {
    Overlay(a, b) + Fresh(b, a)
  }

  lemma {:induction false} GetSomeIffKey<K, V>(h: Hash<K, V>, k: K)
    ensures Get(h, k).Some? <==> k in Keys(h)
  {
    if |h| > 0 {
      GetSomeIffKey(h[1..], k);
    }
  }

  lemma {:induction false} KeysAppend<K, V>(x: Hash<K, V>, y: Hash<K, V>)
    ensures Keys(x + y) == Keys(x) + Keys(y)
  {
    if |x| > 0 {
      assert (x + y)[1..] == x[1..] + y;
      KeysAppend(x[1..], y);
    } else {
      assert x + y == y;
    }
  }

  lemma {:induction false} GetAppend<K, V>(x: Hash<K, V>, y: Hash<K, V>, k: K)
    ensures Get(x + y, k) == if k in Keys(x) then Get(x, k) else Get(y, k)
  {
    if |x| > 0 {
      assert (x + y)[1..] == x[1..] + y;
      GetAppend(x[1..], y, k);
    } else {
      assert x + y == y;
    }
  }

  lemma {:induction false} OverlayKeys<K, V>(a: Hash<K, V>, b: Hash<K, V>)
    ensures Keys(Overlay(a, b)) == Keys(a)
  {
    if |a| > 0 {
      OverlayKeys(a[1..], b);
    }
  }

  lemma {:induction false} OverlayGet<K, V>(a: Hash<K, V>, b: Hash<K, V>, k: K)
    ensures Get(Overlay(a, b), k) ==
            if Get(a, k).Some? && Get(b, k).Some? then Get(b, k) else Get(a, k)
  {
    if |a| > 0 {
      OverlayGet(a[1..], b, k);
    }
  }

  lemma {:induction false} FreshGet<K, V>(b: Hash<K, V>, a: Hash<K, V>, k: K)
    ensures Get(Fresh(b, a), k) == if k in Keys(a) then None else Get(b, k)
  {
    if |b| > 0 {
      FreshGet(b[1..], a, k);
      if b[0].0 !in Keys(a) {
        assert ([b[0]] + Fresh(b[1..], a))[1..] == Fresh(b[1..], a);
      } else {
        assert Fresh(b, a) == Fresh(b[1..], a);
        assert k !in Keys(a) ==> b[0].0 != k;
      }
    }
  }

  lemma FreshKeys<K, V>(b: Hash<K, V>, a: Hash<K, V>)
    ensures forall k :: k in Keys(Fresh(b, a)) <==> k in Keys(b) && k !in Keys(a)
  {
    forall k ensures k in Keys(Fresh(b, a)) <==> k in Keys(b) && k !in Keys(a) {
      FreshGet(b, a, k);
      GetSomeIffKey(Fresh(b, a), k);
      GetSomeIffKey(b, k);
    }
  }

  lemma {:induction false} FreshDistinct<K, V>(b: Hash<K, V>, a: Hash<K, V>)
    requires Distinct(Keys(b))
    ensures Distinct(Keys(Fresh(b, a)))
  {
    if |b| > 0 {
      KeysIndex(b);
      KeysIndex(b[1..]);
      assert Distinct(Keys(b[1..])) by {
        forall i, j | 0 <= i < j < |Keys(b[1..])|
          ensures Keys(b[1..])[i] != Keys(b[1..])[j]
        {
          assert Keys(b)[i + 1] != Keys(b)[j + 1];
        }
      }
      FreshDistinct(b[1..], a);
      if b[0].0 !in Keys(a) {
        FreshKeys(b[1..], a);
        assert b[0].0 !in Keys(b[1..]) by {
          forall i | 0 <= i < |Keys(b[1..])| ensures Keys(b[1..])[i] != b[0].0 {
            assert Keys(b)[0] != Keys(b)[i + 1];
          }
        }
        DistinctAppend([b[0].0], Keys(Fresh(b[1..], a)));
        KeysAppend([b[0]], Fresh(b[1..], a));
      } else {
        assert Fresh(b, a) == Fresh(b[1..], a);
      }
    }
  }

  lemma DistinctAppend<T>(x: seq<T>, y: seq<T>)
    requires Distinct(x) && Distinct(y)
    requires forall t :: t in y ==> t !in x
    ensures Distinct(x + y)
  {
    forall i, j | 0 <= i < j < |x + y| ensures (x + y)[i] != (x + y)[j] {
      if j >= |x| && i < |x| {
        assert (x + y)[j] == y[j - |x|];
        assert (x + y)[j] in y;
      }
    }
  }

  /** Lookup in a merge: the argument's value when it has the key, the
      receiver's otherwise (absent from both gives `None`). */
  lemma MergeGet<K, V>(a: Hash<K, V>, b: Hash<K, V>, k: K)
    ensures Get(Merge(a, b), k) == if Get(b, k).Some? then Get(b, k) else Get(a, k)
  {
    GetAppend(Overlay(a, b), Fresh(b, a), k);
    OverlayKeys(a, b);
    OverlayGet(a, b, k);
    FreshGet(b, a, k);
    GetSomeIffKey(a, k);
  }

  lemma MergeGetAll<K, V>(a: Hash<K, V>, b: Hash<K, V>)
    ensures forall k :: Get(Merge(a, b), k) == if Get(b, k).Some? then Get(b, k) else Get(a, k)
  {
    forall k ensures Get(Merge(a, b), k) == if Get(b, k).Some? then Get(b, k) else Get(a, k) {
      MergeGet(a, b, k);
    }
  }

  /** The keys of a merge: the receiver's keys first, in their order, then
      the argument's new keys; no other key; no key twice. */
  lemma MergeKeys<K, V>(a: Hash<K, V>, b: Hash<K, V>)
    ensures Keys(a) <= Keys(Merge(a, b))
    ensures forall k :: k in Keys(Merge(a, b)) <==> k in Keys(a) || k in Keys(b)
    ensures Distinct(Keys(a)) && Distinct(Keys(b)) ==> Distinct(Keys(Merge(a, b)))
  {
    KeysAppend(Overlay(a, b), Fresh(b, a));
    OverlayKeys(a, b);
    FreshKeys(b, a);
    if Distinct(Keys(a)) && Distinct(Keys(b)) {
      FreshDistinct(b, a);
      DistinctAppend(Keys(a), Keys(Fresh(b, a)));
    }
  }

  lemma {:induction false} KeysIndex<K, V>(h: Hash<K, V>)
    ensures |Keys(h)| == |h|
    ensures forall i :: 0 <= i < |h| ==> Keys(h)[i] == h[i].0
  {
    if |h| > 0 {
      KeysIndex(h[1..]);
    }
  }

  /** In a hash without repeated keys, every entry is what its key looks up. */
  lemma {:induction false} GetAtIndex<K, V>(h: Hash<K, V>, i: nat)
    requires i < |h| && Distinct(Keys(h))
    ensures Get(h, h[i].0) == Some(h[i].1)
  {
    KeysIndex(h);
    if i > 0 {
      assert Keys(h)[0] != Keys(h)[i];
      KeysIndex(h[1..]);
      assert Distinct(Keys(h[1..])) by {
        forall a, b | 0 <= a < b < |Keys(h[1..])| ensures Keys(h[1..])[a] != Keys(h[1..])[b] {
          assert Keys(h)[a + 1] != Keys(h)[b + 1];
        }
      }
      GetAtIndex(h[1..], i - 1);
    }
  }
}

=== FILE: json.dfy ===
/** Abstract JSON values as `JSON.load` produces them and `JSON.dump`
    consumes them. Objects are ordered hashes, so the order in which a
    document's keys are written out is part of the value. */
module Json {
  import opened Wrappers
  import opened Hashes

  datatype Value =
    | Null
    | Bool(b: bool)
    | Num(n: int)
    | Str(s: string)
    | Arr(items: seq<Value>)
    | Obj(fields: Hash<string, Value>)

  /** Ruby's `hash[key]`: the value, or `nil` when the key is absent. */
  function At(h: Hash<string, Value>, k: string): Value {
    Get(h, k).GetOr(Null)
  }
}

=== FILE: lines.dfy ===
/** The bulk request body: the buffered records joined with newlines, as
    Ruby's `Array#join("\n")` does, and the line split a reader of that body
    performs, which undoes it. */
module Lines {

  const Newline: char := '\n'

  predicate SingleLine(s: string) {
    Newline !in s
  }

  /** `lines.join("\n")`: a separator between neighbours, none after the last. */
  function Join(lines: seq<string>): string {
    if |lines| == 0 then ""
    else if |lines| == 1 then lines[0]
    else lines[0] + [Newline] + Join(lines[1..])
  }

  /** Cuts `s` at every newline; `n` newlines give `n + 1` pieces. */
  function Split(s: string): (lines: seq<string>)
    ensures |lines| == NewlineCount(s) + 1
  {
    if |s| == 0 then [""]
    else
      var rest := Split(s[1..]);
      if s[0] == Newline then [""] + rest
      else [[s[0]] + rest[0]] + rest[1..]
  }

  function NewlineCount(s: string): nat {
    if |s| == 0 then 0
    else (if s[0] == Newline then 1 else 0) + NewlineCount(s[1..])
  }

  lemma {:induction false} NewlineCountAppend(x: string, y: string)
    ensures NewlineCount(x + y) == NewlineCount(x) + NewlineCount(y)
  {
    if |x| > 0 {
      assert (x + y)[1..] == x[1..] + y;
      NewlineCountAppend(x[1..], y);
    } else {
      assert x + y == y;
    }
  }

  lemma {:induction false} NewlineCountZero(s: string)
    ensures NewlineCount(s) == 0 <==> SingleLine(s)
  {
    if |s| > 0 {
      NewlineCountZero(s[1..]);
      assert s == [s[0]] + s[1..];
    }
  }

  lemma {:induction false} SplitSingle(x: string)
    requires SingleLine(x)
    ensures Split(x) == [x]
  {
    if |x| > 0 {
      assert Newline !in x[1..] by {
        assert forall c :: c in x[1..] ==> c in x;
      }
      SplitSingle(x[1..]);
      assert [x[0]] + x[1..] == x;
    }
  }

  lemma {:induction false} SplitCons(x: string, y: string)
    requires SingleLine(x)
    ensures Split(x + [Newline] + y) == [x] + Split(y)
  {
    if |x| == 0 {
      assert x + [Newline] + y == [Newline] + y;
      assert ([Newline] + y)[1..] == y;
    } else {
      var s := x + [Newline] + y;
      assert s[0] == x[0];
      assert s[1..] == x[1..] + [Newline] + y;
      assert Newline !in x[1..] by {
        assert forall c :: c in x[1..] ==> c in x;
      }
      SplitCons(x[1..], y);
      assert [x[0]] + x[1..] == x;
    }
  }

  /** Reading the body back line by line gives exactly the records, provided
      no record spans two lines. */
  lemma {:induction false} SplitJoin(lines: seq<string>)
    requires |lines| >= 1
    requires forall i :: 0 <= i < |lines| ==> SingleLine(lines[i])
    ensures Split(Join(lines)) == lines
  {
    if |lines| == 1 {
      SplitSingle(lines[0]);
    } else {
      SplitJoin(lines[1..]);
      SplitCons(lines[0], Join(lines[1..]));
      assert [lines[0]] + lines[1..] == lines;
    }
  }

  /** Joining the pieces of any text gives that text back. */
  lemma {:induction false} JoinSplit(s: string)
    ensures Join(Split(s)) == s
  {
    if |s| > 0 {
      var rest := Split(s[1..]);
      JoinSplit(s[1..]);
      if s[0] == Newline {
        assert ([""] + rest)[1..] == rest;
        assert [s[0]] + s[1..] == s;
      } else {
        var pieces := [[s[0]] + rest[0]] + rest[1..];
        assert pieces[1..] == rest[1..];
        if |rest| == 1 {
          assert Join(pieces) == [s[0]] + rest[0];
        } else {
          assert Join(rest) == rest[0] + [Newline] + Join(rest[1..]);
          assert Join(pieces) == [s[0]] + rest[0] + [Newline] + Join(rest[1..]);
        }
        assert [s[0]] + s[1..] == s;
      }
    }
  }

  /** One separator fewer than records: the body carries no terminating
      newline after its last record. */
  lemma {:induction false} JoinSeparators(lines: seq<string>)
    requires |lines| >= 1
    requires forall i :: 0 <= i < |lines| ==> SingleLine(lines[i])
    ensures NewlineCount(Join(lines)) == |lines| - 1
  {
    NewlineCountZero(lines[0]);
    if |lines| > 1 {
      JoinSeparators(lines[1..]);
      NewlineCountAppend(lines[0] + [Newline], Join(lines[1..]));
      NewlineCountAppend(lines[0], [Newline]);
    }
  }

  /** With a non-empty last record that holds no newline, the body's final
      character is not a newline. */
  lemma JoinUnterminated(lines: seq<string>)
    requires |lines| >= 1
    requires SingleLine(lines[|lines| - 1]) && |lines[|lines| - 1]| > 0
    ensures |Join(lines)| > 0 && Join(lines)[|Join(lines)| - 1] != Newline
  {
  }
}

=== FILE: traces.dfy ===
/** Sequences of handler callbacks: events handed to `run` and timer ticks
    calling `flush`, replayed from the state `post_init` leaves. EventMachine
    runs both callbacks on one reactor thread, so a sequence of whole calls
    is every interleaving there is. */
module Traces {
  import opened Wrappers
  import opened Json
  import opened Lines
  import opened Elastic

  datatype Input = Deliver(event: Event, now: int) | Tick(outcome: SendOutcome)

  /** One callback's effect on the buffer: the handler after it, the lines it
      appended, the lines it cleared, and whether it tore a pair (pushed an
      action line whose document then failed to serialise). */
  datatype Transition = Transition(next: Handler, appended: seq<string>, cleared: seq<string>, torn: bool)

  /** A callback loses and duplicates nothing: what was buffered plus what
      it appended is what it cleared plus what stays buffered. It appends
      whole pairs unless it tore one, and clears nothing or the whole buffer
      at once. */
  predicate Accounts(h: Handler, t: Transition) {
    && h.data + t.appended == t.cleared + t.next.data
    && |t.appended| % 2 == (if t.torn then 1 else 0)
    && (t.cleared == [] || (t.cleared == h.data && t.next.data == []))
  }

  function Step(h: Handler, input: Input, lib: Library): (t: Transition)
    ensures Accounts(h, t)
    ensures input.Deliver? ==> t.cleared == []
    ensures t.torn <==> input.Deliver? && |Run(h, input.event, input.now, lib).handler.data| == |h.data| + 1
    ensures t.torn ==> Run(h, input.event, input.now, lib).outcome == Raised(GeneratorError)
    ensures t.cleared != [] ==> input.Tick? && Flush(h, input.outcome).request == Some(Post(h.uri, Join(t.cleared)))
    ensures t.next.uri == h.uri && t.next.elastic == h.elastic
  {
    match input
    case Deliver(e, now) =>
      var r := Run(h, e, now, lib);
      assert r.handler.data == h.data + r.handler.data[|h.data|..];
      Transition(r.handler, r.handler.data[|h.data|..], [], |r.handler.data| == |h.data| + 1)
    case Tick(outcome) =>
      var r := Flush(h, outcome);
      Transition(r.handler, [], if r.raised then [] else h.data, false)
  }

  /** Step functions that keep the accounting on every state and input. */
  type Stepper = step: (Handler, Input) -> Transition | forall h, input :: Accounts(h, step(h, input))
    witness (h: Handler, input: Input) => Transition(h, [], [], false)

  /** The handler's callbacks, as one function of state and input. */
  function Callbacks(lib: Library): Stepper {
    var step := (h: Handler, input: Input) => Step(h, input, lib);
    assert forall h, input :: Accounts(h, step(h, input)) by {
      forall h, input ensures Accounts(h, step(h, input)) {
        var t := Step(h, input, lib);
      }
    }
    step
  }

  /** Two accounting steps compose: what went in is what went out plus
      what remains. */
  lemma Chain<T>(held: seq<T>, in1: seq<T>, out1: seq<T>, mid: seq<T>, in2: seq<T>, out2: seq<T>, last: seq<T>)
    requires held + in1 == out1 + mid
    requires mid + in2 == out2 + last
    ensures held + (in1 + in2) == (out1 + out2) + last
  {
    calc {
      held + (in1 + in2);
      (held + in1) + in2;
      (out1 + mid) + in2;
      out1 + (mid + in2);
      out1 + (out2 + last);
    }
  }

  /** The inputs applied in order by `step`, with everything appended and
      every batch cleared, concatenated; torn when any step tore a pair. */
  function Replay(h: Handler, inputs: seq<Input>, step: Stepper): (t: Transition)
    ensures h.data + t.appended == t.cleared + t.next.data
    ensures !t.torn && |h.data| % 2 == 0 ==> |t.next.data| % 2 == 0
    ensures !t.torn ==> |t.appended| % 2 == 0
    decreases |inputs|
  {
    if |inputs| == 0 then Transition(h, [], [], false)
    else
      var s := step(h, inputs[0]);
      assert Accounts(h, s);
      var rest := Replay(s.next, inputs[1..], step);
      Chain(h.data, s.appended, s.cleared, s.next.data, rest.appended, rest.cleared, rest.next.data);
      Transition(rest.next, s.appended + rest.appended, s.cleared + rest.cleared, s.torn || rest.torn)
  }

  /** Starting from an empty buffer, every line ever appended is either
      still buffered or in exactly one cleared batch, in the order it was
      appended; while no pair was torn, the buffer holds whole
      action/document pairs. */
  lemma FromEmpty(h: Handler, inputs: seq<Input>, step: Stepper)
    requires h.data == []
    ensures var t := Replay(h, inputs, step);
      && t.appended == t.cleared + t.next.data
      && (!t.torn ==> |t.next.data| % 2 == 0 && |t.cleared| % 2 == 0)
  {
    var t := Replay(h, inputs, step);
    assert h.data + t.appended == t.appended;
    assert |t.appended| == |t.cleared| + |t.next.data|;
  }

  /** The same for the handler's own callbacks from the state `post_init`
      leaves. */
  lemma BufferAccounting(elastic: Value, inputs: seq<Input>, lib: Library)
    ensures var t := Replay(PostInit(elastic, lib), inputs, Callbacks(lib));
      && t.appended == t.cleared + t.next.data
      && (!t.torn ==> |t.next.data| % 2 == 0 && |t.cleared| % 2 == 0)
  {
    FromEmpty(PostInit(elastic, lib), inputs, Callbacks(lib));
  }

  /** A torn pair leaves an even buffer odd. It stays odd, with later action
      lines where document lines are expected, until a flush clears it or
      another pair is torn. */
  lemma TornPairMisaligns(h: Handler, e: Event, now: int, lib: Library)
    requires |h.data| % 2 == 0
    requires Step(h, Deliver(e, now), lib).torn
    ensures |Step(h, Deliver(e, now), lib).next.data| % 2 == 1
    ensures Run(h, e, now, lib).outcome == Raised(GeneratorError)
  {
  }

  /** A tick on a buffer that is already empty attempts no request and
      changes nothing. */
  lemma IdleTick(h: Handler, outcome: SendOutcome, lib: Library)
    requires h.data == []
    ensures Step(h, Tick(outcome), lib) == Transition(h, [], [], false)
    ensures Flush(h, outcome).request.None?
  {
  }

  /** A tick on a non-empty buffer ending in a response or a timeout clears
      the buffer and has sent all of it as one request; one ending in a
      connection failure clears nothing, so those lines stay buffered and
      lead the request of any later `flush` call. */
  lemma TickOutcome(h: Handler, outcome: SendOutcome, lib: Library)
    requires h.data != []
    ensures var t := Step(h, Tick(outcome), lib);
      && (outcome.Success? || outcome.NonSuccess? || outcome.Timeout? ==>
            t.cleared == h.data && t.next.data == [])
      && (outcome.SocketFailure? || outcome.OtherFailure? ==>
            t.cleared == [] && t.next.data == h.data)
  {
  }

  /** After a connection failure, if `flush` is called again, the retained
      lines lead its request body, followed by whatever arrived in between. */
  lemma ResentAfterFailure(h: Handler, failure: SendOutcome, between: seq<Input>, outcome: SendOutcome, lib: Library)
    requires h.data != []
    requires failure.SocketFailure? || failure.OtherFailure?
    requires forall i :: 0 <= i < |between| ==> between[i].Deliver?
    ensures var mid := Replay(Step(h, Tick(failure), lib).next, between, Callbacks(lib)).next;
      && |h.data| <= |mid.data| && mid.data[..|h.data|] == h.data
      && mid.data == h.data + Replay(Step(h, Tick(failure), lib).next, between, Callbacks(lib)).appended
      && Flush(mid, outcome).request.value.body == Join(mid.data)
  {
    var h1 := Step(h, Tick(failure), lib).next;
    DeliveriesClearNothing(h1, between, lib);
  }

  lemma {:induction false} DeliveriesClearNothing(h: Handler, inputs: seq<Input>, lib: Library)
    requires forall i :: 0 <= i < |inputs| ==> inputs[i].Deliver?
    ensures Replay(h, inputs, Callbacks(lib)).cleared == []
    ensures Replay(h, inputs, Callbacks(lib)).next.data == h.data + Replay(h, inputs, Callbacks(lib)).appended
    decreases |inputs|
  {
    if |inputs| > 0 {
      var s := Step(h, inputs[0], lib);
      DeliveriesClearNothing(s.next, inputs[1..], lib);
    }
  }
}

=== FILE: wrappers.dfy ===
/** The optional-value datatype the rest of the model is written with. */
module Wrappers {

  /** `None` stands for Ruby's `nil` (a missing key, an exception caught and
      turned into `nil`); `Some(v)` for a present value. */
  datatype Option<+T> = None | Some(value: T) {

    /** The value, or `default` when there is none: Ruby's `x || default`. */
    function GetOr(default: T): T {
      match this
      case Some(v) => v
      case None => default
    }
  }
}
